=== FILE: README.md ===
# ambivo-gpt core in Dafny

This project models the logic at the centre of the ambivo-gpt HTTP façade, with the network abstracted away.
The façade forwards natural-language CRM queries to one upstream endpoint, the Ambivo `/entity/natural_query` API.
The model covers two source files:

- `mcp_core.py`, with `AmbivoAPIClient` and `handle_call_tool`. The model covers token acceptance, request headers, query validation, payload and URL construction, and the bounded exponential-backoff retry loop. It also covers the tool dispatcher, which turns every outcome into exactly one text item.
- `main.py`, with the `Authorization` header parser `get_auth_token`, the three handlers that install a request's bearer token on the shared client and restore it afterwards, and the join of result texts.

Modules:

| file | module | models |
|---|---|---|
| Base.dfy | `Base` | `Option` (Python `None`) and `Result` (a value or a raised exception) |
| Text.dfy | `Text` | Python `str.strip()`, `str.rstrip("/")` and `str(n)` for status codes |
| Retry.dfy | `Retry` | `_make_request_with_retry`, as recursion over a sequence of attempt outcomes |
| Client.dfy | `Client` | `AmbivoAPIClient`: `__init__`, `set_auth_token`, `_get_headers`, `natural_query` |
| Tools.dfy | `Tools` | `handle_call_tool`, split into a typed outcome (`Dispatch`) and its text (`Render`), plus a decoder (`Decode`) that reads the text back |
| Server.dfy | `Server` | `get_auth_token`, `POST /query`, `GET /tools`, `POST /tools` |

The shared client is a value (`ClientState`).
A handler receives the client and returns the client as it is afterwards, so requests are handled strictly one at a time.
The network is a sequence of `Attempt`s: element `i` is what the HTTP library produced on call `i`.
Each element is a response (status, text, decoded body), a transient failure (timeout, connect or read) or any other failure.
The retry loop returns the attempt it stopped at, the number of calls it made, and the list of back-off waits it would have slept.

Where the code and the design description disagree, the model follows the code:

- A validation failure inside `natural_query` does not produce `"Validation Error: …"`. The query branch's own `except Exception` catches it first, so the text is `"Error executing natural query: …"` (mcp_core.py:268-273). Only `set_auth_token` produces `"Validation Error: …"`.
- After the retries run out, a timeout is reported as `"Error executing natural query: Request timeout after {timeout}s"`. Connect and read failures are reported as `"Error executing natural query: {message}"`. Neither is reported as `"Unexpected error: …"`.
- A status error always gives `"API Error: HTTP {code}: {body}"`. The outer handler that would extract `error_code` (mcp_core.py:282-292) is unreachable.
- Any non-2xx status counts as a status error, including 1xx and 3xx. That is what `raise_for_status` does. A non-2xx response is not retried: the call that produced it is the last one, after any transient failures before it.
- `set_auth_token` in the dispatcher checks only truthiness. The ten-character minimum comes from the client method. A truthy boolean or integer token fails inside `len()` and gives `"Unexpected error: object of type '…' has no len()"`.

## Model

| member | source | states |
|---|---|---|
| Text.Strip | main.py:382 | `strip()` removes a whitespace-only prefix and a whitespace-only suffix and keeps the middle, which has no whitespace at either end |
| Text.StripEmptyIffAllSpace | mcp_core.py:94 | `query.strip()` is empty exactly when every character of the query is Python whitespace |
| Text.TrimTrailingSlashes | mcp_core.py:41 | `rstrip("/")` keeps a prefix of the URL, removes only '/' characters, and leaves no trailing '/' |
| Text.TrimTrailingSlashesUnique | mcp_core.py:41 | those three facts determine the normalised base URL uniquely |
| Text.TrimTrailingSlashesIdempotent | mcp_core.py:41 | normalising an already normalised base URL changes nothing |
| Text.ParseNatToString | mcp_core.py:266 | the decimal status code written into an API error text reads back as the same number |
| Retry.Backoff | mcp_core.py:74-79 | after `k` retried failures the waits are exactly 2^0, 2^1, …, 2^(k-1) seconds |
| Retry.MakeRequestWithRetry | mcp_core.py:68-84 | at most `max_retries + 1` calls are made. Every call before the last failed transiently. The last call is the first response or non-transient failure, or else the last call allowed. The waits are `Backoff(attempts - 1)`, so the final failed attempt is not followed by a wait |
| Retry.RetrySpecUnique | mcp_core.py:68-84 | at most one result satisfies the loop's description, so the description is complete |
| Retry.TransientThenResponse | mcp_core.py:68-79 | `k <= max_retries` transient failures followed by a response return that response, whatever its status, after `k + 1` calls with waits 1, 2, …, 2^(k-1) |
| Retry.AllTransient | mcp_core.py:72-84 | when every allowed call fails transiently, exactly `max_retries + 1` calls are made and the last failure escapes after waits 1, …, 2^(max_retries-1) |
| Retry.OtherFaultNotRetried | mcp_core.py:68-79 | after `k <= max_retries` transient failures, a non-transient failure escapes from call `k + 1`, which raised it. There is no retry and no wait after it, and the waits before it are 1, …, 2^(k-1) |
| Retry.BackoffTotal | mcp_core.py:74-79 | the total back-off before call `k` is 2^k - 1 seconds |
| Retry.DefaultRetriesExample | mcp_core.py:68-84 | with three retries and only connect failures, there are four calls and the waits are 1, 2 and 4 |
| Client.NewClient | mcp_core.py:40-44 | an explicit non-empty base URL wins over the environment, which wins over the default. The result is rstripped of '/'. An explicit non-empty token wins over the environment's |
| Client.SetAuthToken | mcp_core.py:48-53 | succeeds exactly for a string of at least 10 characters. Success replaces the token and nothing else. Otherwise it raises `ValueError("Invalid token format")`, or `TypeError` for a truthy boolean or integer, with the client unchanged |
| Client.Headers | mcp_core.py:55-60 | `Content-Type` and `Accept` are always `application/json`. `Authorization` is present exactly when the token is truthy, and then it is `"Bearer " + token`. There are no other keys |
| Client.CheckQuery | mcp_core.py:93-103 | lets a request through exactly for a non-blank string query of at most 1000 characters in a known format. Otherwise the first failing check decides the error: empty/blank, then too long (untrimmed length), then bad format. A truthy non-string query raises `AttributeError` |
| Client.Payload | mcp_core.py:105-111 | keys are exactly `query` and `response_format`, plus `enable_memory` and `session_id` only when they are not `None`. The values are the arguments |
| Client.Settle | mcp_core.py:125-141 | a 2xx JSON response yields the parsed result. A 2xx body that is not JSON raises the decoder's `ValueError`. Any other status yields a status error with its code and body. A final timeout becomes `"Request timeout after {timeout}s"`. A connect, read or other transport failure is re-raised with its own message |
| Client.BuildRequest | mcp_core.py:105-119 | a POST to the base URL followed by `/entity/natural_query`. The body carries the query and the format. `Authorization: Bearer {token}` is present exactly when the client's token is truthy |
| Client.NaturalQuery | mcp_core.py:88-129 | a request is sent exactly when validation passes; otherwise there are no calls, no waits and the validation error is raised. The request is a POST to `base_url + "/entity/natural_query"` with the payload and headers. The result is decided by the attempt the retry loop stopped at |
| Client.StatusErrorNotRetried | mcp_core.py:118-138 | a non-2xx first response fails with its status and body after exactly one call |
| Client.TransientThenSuccess | mcp_core.py:118-129 | `k` transient failures and then 2xx JSON give the parsed result after `k + 1` calls and waits 1, …, 2^(k-1) |
| Client.TimeoutsExhaustRetries | mcp_core.py:131-133 | transient failures on every allowed call, the last a timeout, give `max_retries + 1` calls and the timeout message naming the configured timeout, whatever the failures' own messages |
| Client.UrlHasSingleSlash | mcp_core.py:112 | the endpoint path follows the normalised base URL with exactly one '/' between them |
| Tools.Render | mcp_core.py:220-296 | the text the dispatcher returns for each outcome. Its inverse is `Decode` (see `Tools.DecodeRender`) |
| Tools.QueryOutcome | mcp_core.py:257-273 | the result becomes results text exactly on success and an API error exactly for a status error. Every other exception becomes the generic query error with its message |
| Tools.DecodeRender | mcp_core.py:217-296 | each of the dispatcher's texts decodes back to the outcome it reports, so the text prefixes tell the error classes apart |
| Tools.RenderInjective | mcp_core.py:217-296 | two different outcomes never produce the same text |
| Tools.Dispatch | mcp_core.py:206-276 | only `set_auth_token` may change the client, and it changes only the token. Nothing is sent except by `natural_query` with a token set, whose sent payload passes validation. The sent request is exactly the one built from the caller's `query`, `response_format` (default `"both"`), `enable_memory` and `session_id`. The token goes in the headers, with 1 to `max_retries + 1` calls. Any other name gives `UnknownTool(name)` |
| Tools.HandleCallTool | mcp_core.py:206-276 | the result is always exactly one `"text"` item. No exception escapes. Only the token can change. Any request sent carries the caller's query, format, memory flag and session id |
| Tools.CallTextDecodes | mcp_core.py:206-296 | the single text decodes back to exactly the dispatch outcome |
| Tools.UnknownToolText | mcp_core.py:275-276 | an unknown name gives exactly `"Unknown tool: {name}"`, changes nothing and sends nothing |
| Tools.MissingTokenChangesNothing | mcp_core.py:217-224 | `set_auth_token` with a missing or falsy token gives `"Error: Authentication token is required"` and changes nothing |
| Tools.SetTokenAccepted | mcp_core.py:226-234 | a string token of at least ten characters is installed, and the success text is returned |
| Tools.SetTokenTooShort | mcp_core.py:278-280 | a shorter non-empty token gives `"Validation Error: Invalid token format"` and leaves the token unchanged |
| Tools.SetTokenWrongType | mcp_core.py:294-296 | a truthy boolean or integer token gives `"Unexpected error: object of type '…' has no len()"` and leaves the token unchanged |
| Tools.QueryNeedsToken | mcp_core.py:236-243 | `natural_query` without a truthy client token gives the authentication-required text and makes no call |
| Tools.QueryParameterRequired | mcp_core.py:245-251 | a missing or falsy query gives `"Error: Query parameter is required"` and makes no call |
| Tools.QueryValidationText | mcp_core.py:253-273 | a query that fails the client's validation is reported through the generic query handler with the validation message, and nothing is sent |
| Tools.ResponseFormatDefault | mcp_core.py:253-258 | for a token set and a valid query, the sent `response_format` is `"both"` when the key is absent and the given value when it is present. An explicit `None` does not get the default: it fails validation with the invalid-format message and nothing is sent |
| Tools.ValidatedQueryIsSent | mcp_core.py:245-258 | a validated query is sent as the request built from the caller's arguments, with `Authorization: Bearer {client token}`, and the retry loop's final attempt decides its outcome |
| Tools.SettledText | mcp_core.py:257-273 | the exact texts: results label plus dump on 2xx JSON, `"API Error: HTTP {code}: {body}"` on other statuses, the timeout message, and `"Error executing natural query: {msg}"` for a 2xx non-JSON body and every other failure |
| Server.GetAuthToken | main.py:58-70 | succeeds exactly for a header that starts with `"Bearer "` and has more after it. The token is non-empty and `"Bearer " + token` is the header. Every failure is a 401 |
| Server.BearerRoundTrip | main.py:63-70 | parsing `"Bearer " + t` gives back `t` for every non-empty `t` |
| Server.HeaderRoundTrip | mcp_core.py:58-59 | the `Authorization` header the client builds is accepted by the server's parser and yields the same token |
| Server.LinesAppend | main.py:376-378 | each turn of the join loop appends the item's text and a newline |
| Server.JoinTexts | main.py:376-382 | the joined text has no whitespace at either end. A single item joins to its own text stripped, so the added newline disappears. No items give the empty text |
| Server.RestoredToken | main.py:388-393 | the `finally` block puts back the original token when it was truthy and `None` otherwise, never an empty string |
| Server.ListTools | main.py:400-439 | a bad header gives the 401 and nothing changes. A header token rejected by `set_auth_token` gives a 500 and nothing changes. Otherwise the tools are listed and the token is restored |
| Server.ExecuteTool | main.py:442-477 | the tool runs exactly when the header token is accepted, and then the reply carries the tool name. Afterwards the token is the original (or `None`) whatever the tool did. Every upstream request carries exactly the inbound `Authorization` header |
| Server.NaturalLanguageQuery | main.py:332-397 | a missing or non-Bearer header gives `success: False`, with no tool call and no change. An empty query gives a 500 `"400: Query parameter is required"`. A short token gives a 500 `"Invalid token format"`. Otherwise the tool runs under the header's token, which is restored afterwards |
| Server.ExecuteToolText | main.py:453-466 | the reply text of `POST /tools` is the dispatcher's single text, stripped, and the request sent upstream is the dispatcher's request under the header's token |
| Server.TokenDoesNotLeak | main.py:388-393 | after each handler the client's real token is back, and a client with no real token ends with none |
| Server.ShortHeaderTokenRejected | main.py:448-477 | a too-short bearer token leaves the client untouched and gives a 500 `"Invalid token format"` |
| Server.QueryReplyText | main.py:364-386 | with an accepted token and a non-empty query, `POST /query` answers with the tool's text stripped, and sends exactly the request and number of calls of that tool run |
| Server.BlankQueryReachesTool | main.py:361-382 | a whitespace-only query passes the handler's own check and comes back as a successful reply carrying `"Error executing natural query: Query cannot be empty"` |
| Server.ImmediateResults | main.py:364-386 | a valid query whose first upstream call returns 2xx JSON is answered with `"Natural Query Results:\n\n"` plus the dump, after one call |
| Server.CountLeadsExample | main.py:364-386 | the token `valid-token-1234`, the query `count leads` and an upstream `{"count": 5}` give the results label followed by the pretty-printed JSON |

## Left out

- HTTP transport (`httpx.AsyncClient`, `request`, `raise_for_status`, `response.json`): replaced by the sequence of `Attempt`s. The model requires that sequence to supply an outcome for every call the loop may make (`Retry.Covers`).
- Sleeping, clocks and logging (`asyncio.sleep`, `time.time`, every logger call): the waits are returned as a list of naturals instead.
- JSON serialisation: `json.dumps(result, indent=2)` is opaque. A response body carries the text it would produce (`Json(dump)`) or the decoder's error message (`NotJson`).
- The timeout value: the float appears only inside a message, so the client carries its rendered text (`timeoutText`).
- `max_retries` is a natural number. A negative value from the environment, and the final `raise last_exception` (mcp_core.py:86) that only such a value reaches, are not modelled.
- Parsing of the environment variables: the environment's values are parameters of `Client.NewClient`.
- Tool arguments are `None`, booleans, integers or strings. Lists, objects and floats are not modelled.
- The unreachable outer `HTTPStatusError` handler (mcp_core.py:282-292), with its `error_code` extraction.
- `handle_list_tools` (static descriptors) and the conversion of tools to the function-calling format: `GET /tools` replies with the marker `ToolsListed`.
- FastAPI routing, Pydantic request models (including the `response_format` default), CORS, the static OpenAPI and plugin-manifest documents, and the health, debug and test-auth endpoints (main.py:74-329, main.py:480-618).
- Timestamps in replies, and `AmbivoAPIClient.close`.
- Concurrency: the race on the shared token between concurrent requests is not modelled. Requests run one at a time.
- The detail of the 500 for an empty `/query` is `"400: Query parameter is required"`, which is Starlette's `str()` of the inner 400 `HTTPException`. Starlette is not part of this model.
- Text.IsSpace: lists Python's whitespace characters explicitly. Unicode databases beyond that list are not modelled.

=== FILE: Base.dfy ===
/** Optional values and results with an error channel, shared by every module. */
module Base {

  /** A value that may be absent (Python's `None`). */
  datatype Option<T> = None | Some(value: T)

  /** The outcome of an operation that either returns a value or raises an error. */
  datatype Result<T, E> = Success(value: T) | Failure(error: E)
}

=== FILE: Client.dfy ===
/**
 * `AmbivoAPIClient`: token acceptance, request headers, query validation,
 * payload and URL construction, and the translation of the retry loop's
 * result into the value or the exception `natural_query` produces.
 *
 * The client is a value; operations that change its token return the new value.
 */
module Client {
  import opened Base
  import opened Text
  import opened Retry

  const DefaultBaseUrl: string := "https://goferapi.ambivo.com"
  const NaturalQueryPath: string := "/entity/natural_query"
  const MaxQueryLength: nat := 1000
  const MinTokenLength: nat := 10

  const InvalidTokenFormat: string := "Invalid token format"
  const QueryEmpty: string := "Query cannot be empty"
  const QueryTooLong: string := "Query too long. Maximum length: 1000"
  const InvalidResponseFormat: string := "Invalid response_format. Must be 'table', 'natural', or 'both'"

  /** A JSON argument value as a tool call receives it (`None`, a boolean, an
      integer or a string). */
  datatype Arg = Null | Bool(b: bool) | Int(i: int) | Str(s: string)

  /** Python truthiness of an argument value. */
  predicate Truthy(a: Arg)
  {
    match a
    case Null => false
    case Bool(b) => b
    case Int(i) => i != 0
    case Str(s) => s != ""
  }

  /** Python's `type(a).__name__`. */
  function TypeName(a: Arg): string
  {
    match a
    case Null => "NoneType"
    case Bool(_) => "bool"
    case Int(_) => "int"
    case Str(_) => "str"
  }

  /** Python truthiness of an optional string (a token, a header, a base URL). */
  predicate NonEmpty(s: Option<string>)
  {
    s.Some? && s.value != ""
  }

  /** The exceptions the client and the dispatcher can see. */
  datatype Exc =
    | ValueError(message: string)
    | TypeError(message: string)
    | AttributeError(message: string)
    | TransportError(message: string)       // a connect/read failure, or any other exception the request raised, escaping the loop
    | PlainError(message: string)           // the bare `Exception` raised after a timeout
    | StatusError(code: nat, text: string)  // `httpx.HTTPStatusError` from `raise_for_status`

  /** `str(e)` for every exception other than a status error. */
  function Message(e: Exc): string
    requires !e.StatusError?
  {
    match e
    case ValueError(m) => m
    case TypeError(m) => m
    case AttributeError(m) => m
    case TransportError(m) => m
    case PlainError(m) => m
  }

  /** The client's configuration and its mutable token. `timeoutText` is the
      timeout as Python renders the float (`"30.0"`); it only appears in a message. */
  datatype ClientState = ClientState(baseUrl: string, authToken: Option<string>, timeoutText: string, maxRetries: nat)

  /** `AmbivoAPIClient.__init__`: an explicit, non-empty base URL wins over the
      environment, which wins over the default; trailing '/' are removed. An
      explicit non-empty token wins over the environment's. */
  function NewClient(baseUrl: Option<string>, envBaseUrl: Option<string>,
                     authToken: Option<string>, envAuthToken: Option<string>,
                     timeoutText: string, maxRetries: nat): (c: ClientState)
    ensures var chosen := if NonEmpty(baseUrl) then baseUrl.value
                          else if envBaseUrl.Some? then envBaseUrl.value else DefaultBaseUrl;
            && c.baseUrl <= chosen
            && (forall i :: |c.baseUrl| <= i < |chosen| ==> chosen[i] == '/')
            && (c.baseUrl == [] || c.baseUrl[|c.baseUrl| - 1] != '/')
    ensures c.authToken == if NonEmpty(authToken) then authToken else envAuthToken
    ensures c.timeoutText == timeoutText && c.maxRetries == maxRetries
  {
    var chosen := if NonEmpty(baseUrl) then baseUrl.value
                  else if envBaseUrl.Some? then envBaseUrl.value else DefaultBaseUrl;
    ClientState(TrimTrailingSlashes(chosen),
                if NonEmpty(authToken) then authToken else envAuthToken,
                timeoutText, maxRetries)
  }

  /** `set_auth_token`: a string of at least ten characters replaces the token
      and nothing else; anything else raises before the assignment. */
  function SetAuthToken(c: ClientState, token: Arg): (r: Result<ClientState, Exc>)
    ensures r.Success? <==> token.Str? && |token.s| >= MinTokenLength
    ensures r.Success? ==> r.value == c.(authToken := Some(token.s))
    ensures r.Failure? && (!Truthy(token) || token.Str?) ==> r.error == ValueError(InvalidTokenFormat)
    ensures r.Failure? && Truthy(token) && !token.Str? ==> r.error.TypeError?
  {
    if !Truthy(token) then Failure(ValueError(InvalidTokenFormat))
    else match token
      case Str(s) =>
        if |s| < MinTokenLength then Failure(ValueError(InvalidTokenFormat))
        else Success(c.(authToken := Some(s)))
      case _ => Failure(TypeError("object of type '" + TypeName(token) + "' has no len()"))
  }

  /** `_get_headers`. */
  function Headers(token: Option<string>): (h: map<string, string>)
    ensures "Content-Type" in h && h["Content-Type"] == "application/json"
    ensures "Accept" in h && h["Accept"] == "application/json"
    ensures "Authorization" in h <==> NonEmpty(token)
    ensures "Authorization" in h ==> h["Authorization"] == "Bearer " + token.value
    ensures h.Keys <= {"Content-Type", "Accept", "Authorization"}
  {
    var base := map["Content-Type" := "application/json", "Accept" := "application/json"];
    if NonEmpty(token) then base["Authorization" := "Bearer " + token.value] else base
  }

  /** The response formats `natural_query` accepts. */
  predicate IsResponseFormat(a: Arg)
  {
    a in {Str("table"), Str("natural"), Str("both")}
  }

  /** The inputs `natural_query` lets through to the network. */
  predicate ValidQueryArgs(query: Arg, responseFormat: Arg)
  {
    query.Str? && !AllSpace(query.s) && |query.s| <= MaxQueryLength && IsResponseFormat(responseFormat)
  }

  /** The validation at the top of `natural_query`, in the source's order: the
      first failing check decides the exception. */
  function CheckQuery(query: Arg, responseFormat: Arg): (err: Option<Exc>)
    ensures err.None? <==> ValidQueryArgs(query, responseFormat)
    ensures !Truthy(query) ==> err == Some(ValueError(QueryEmpty))
    ensures Truthy(query) && !query.Str? ==> err.Some? && err.value.AttributeError?
    ensures query.Str? && AllSpace(query.s) ==> err == Some(ValueError(QueryEmpty))
    ensures query.Str? && !AllSpace(query.s) && |query.s| > MaxQueryLength
            ==> err == Some(ValueError(QueryTooLong))
    ensures query.Str? && !AllSpace(query.s) && |query.s| <= MaxQueryLength && !IsResponseFormat(responseFormat)
            ==> err == Some(ValueError(InvalidResponseFormat))
  {
    if !Truthy(query) then Some(ValueError(QueryEmpty))
    else if !query.Str? then Some(AttributeError("'" + TypeName(query) + "' object has no attribute 'strip'"))
    else
      StripEmptyIffAllSpace(query.s);
      if |Strip(query.s)| == 0 then Some(ValueError(QueryEmpty))
      else if |query.s| > MaxQueryLength then Some(ValueError(QueryTooLong))
      else if !IsResponseFormat(responseFormat) then Some(ValueError(InvalidResponseFormat))
      else None
  }

  /** The JSON body: `query` and `response_format`, plus `enable_memory` and
      `session_id` only when they are not `None`. */
  function Payload(query: Arg, responseFormat: Arg, enableMemory: Arg, sessionId: Arg): (p: map<string, Arg>)
    ensures p.Keys == {"query", "response_format"}
                      + (if enableMemory != Null then {"enable_memory"} else {})
                      + (if sessionId != Null then {"session_id"} else {})
    ensures p["query"] == query && p["response_format"] == responseFormat
    ensures "enable_memory" in p ==> p["enable_memory"] == enableMemory
    ensures "session_id" in p ==> p["session_id"] == sessionId
  {
    var p := map["query" := query, "response_format" := responseFormat];
    var p := if enableMemory != Null then p["enable_memory" := enableMemory] else p;
    if sessionId != Null then p["session_id" := sessionId] else p
  }

  /** An outbound HTTP request. */
  datatype Request = Request(verb: string, url: string, payload: map<string, Arg>, headers: map<string, string>)

  /** One run of `natural_query`: the parsed result (as its `json.dumps` text) or
      the exception, the request sent if any, and the retry loop's bookkeeping. */
  datatype QueryRun = QueryRun(result: Result<string, Exc>, request: Option<Request>, attempts: nat, waits: seq<nat>)

  /** What `natural_query` makes of the attempt the retry loop stopped at. */
  function Settle(c: ClientState, final: Attempt): (r: Result<string, Exc>)
    ensures final.Responded? && 200 <= final.status < 300 && final.body.Json?
            ==> r == Success(final.body.dump)
    ensures final.Responded? && !(200 <= final.status < 300)
            ==> r == Failure(StatusError(final.status, final.text))
    ensures final.Responded? && 200 <= final.status < 300 && final.body.NotJson?
            ==> r == Failure(ValueError(final.body.message))
    ensures final.TransientFault? && final.kind == Timeout
            ==> r == Failure(PlainError("Request timeout after " + c.timeoutText + "s"))
    ensures final.TransientFault? && final.kind != Timeout ==> r == Failure(TransportError(final.message))
    ensures final.OtherFault? ==> r == Failure(TransportError(final.message))
    ensures r.Failure? && r.error.StatusError? ==> final.Responded?
    ensures r.Success? ==> final.Responded? && final.body.Json?
  {
    match final
    case Responded(status, text, body) =>
      if !(200 <= status < 300) then Failure(StatusError(status, text))
      else if body.NotJson? then Failure(ValueError(body.message))
      else Success(body.dump)
    case TransientFault(kind, message) =>
      if kind == Timeout then Failure(PlainError("Request timeout after " + c.timeoutText + "s"))
      else Failure(TransportError(message))
    case OtherFault(message) => Failure(TransportError(message))
  }

  /** The POST `natural_query` sends: the body to the endpoint under the base
      URL, with the current token's headers. */
  function BuildRequest(c: ClientState, query: Arg, responseFormat: Arg, enableMemory: Arg, sessionId: Arg): (r: Request)
    ensures r.verb == "POST"
    ensures c.baseUrl <= r.url && r.url[|c.baseUrl|..] == NaturalQueryPath
    ensures "query" in r.payload && r.payload["query"] == query
    ensures "response_format" in r.payload && r.payload["response_format"] == responseFormat
    ensures "Authorization" in r.headers <==> NonEmpty(c.authToken)
    ensures "Authorization" in r.headers ==> r.headers["Authorization"] == "Bearer " + c.authToken.value
  {
    Request("POST", c.baseUrl + NaturalQueryPath, Payload(query, responseFormat, enableMemory, sessionId), Headers(c.authToken))
  }

  /** `natural_query`: validate, build the request, run the retry loop, settle.
      Nothing is sent unless every check passes; otherwise the loop's last
      attempt decides the result. */
  function NaturalQuery(c: ClientState, query: Arg, responseFormat: Arg, enableMemory: Arg, sessionId: Arg,
                        outcomes: seq<Attempt>): (run: QueryRun)
    requires Covers(outcomes, c.maxRetries)
    ensures run.request.None? <==> !ValidQueryArgs(query, responseFormat)
    ensures run.request.None? ==> run.attempts == 0 && run.waits == []
    ensures run.request.None? ==> run.result.Failure? && Some(run.result.error) == CheckQuery(query, responseFormat)
    ensures run.request.Some? ==> run.request.value == BuildRequest(c, query, responseFormat, enableMemory, sessionId)
    ensures run.request.Some? ==>
              var loop := MakeRequestWithRetry(outcomes, c.maxRetries);
              run.attempts == loop.attempts && run.waits == loop.waits && run.result == Settle(c, loop.final)
  {
    match CheckQuery(query, responseFormat)
    case Some(e) => QueryRun(Failure(e), None, 0, [])
    case None =>
      var loop := MakeRequestWithRetry(outcomes, c.maxRetries);
      QueryRun(Settle(c, loop.final), Some(BuildRequest(c, query, responseFormat, enableMemory, sessionId)),
               loop.attempts, loop.waits)
  }

  /** A query that gets through validation and whose first response is a
      non-2xx status fails with that status after exactly one call. */
  lemma StatusErrorNotRetried(c: ClientState, query: Arg, responseFormat: Arg, enableMemory: Arg,
                              sessionId: Arg, outcomes: seq<Attempt>)
    requires Covers(outcomes, c.maxRetries)
    requires ValidQueryArgs(query, responseFormat)
    requires outcomes[0].Responded? && !(200 <= outcomes[0].status < 300)
    ensures var run := NaturalQuery(c, query, responseFormat, enableMemory, sessionId, outcomes);
            && run.attempts == 1 && run.waits == []
            && run.result == Failure(StatusError(outcomes[0].status, outcomes[0].text))
  {
  }

  /** `k` transient failures and then a 2xx JSON response: the parsed result
      comes back after `k + 1` calls and waits of 1, 2, ..., 2^(k-1) seconds. */
  lemma TransientThenSuccess(c: ClientState, query: Arg, responseFormat: Arg, enableMemory: Arg,
                             sessionId: Arg, outcomes: seq<Attempt>, k: nat)
    requires Covers(outcomes, c.maxRetries) && k <= c.maxRetries
    requires ValidQueryArgs(query, responseFormat)
    requires forall i :: 0 <= i < k ==> outcomes[i].TransientFault?
    requires outcomes[k].Responded? && 200 <= outcomes[k].status < 300 && outcomes[k].body.Json?
    ensures var run := NaturalQuery(c, query, responseFormat, enableMemory, sessionId, outcomes);
            && run.attempts == k + 1 && run.waits == Backoff(k)
            && run.result == Success(outcomes[k].body.dump)
  {
    TransientThenResponse(outcomes, c.maxRetries, k);
  }

  /** Transient failures on every allowed call, the last of them a timeout:
      `maxRetries + 1` calls, waits 1, ..., 2^(maxRetries-1), and the timeout is
      reported with the configured timeout in the message, whatever the
      failures' own messages were. */
  lemma TimeoutsExhaustRetries(c: ClientState, query: Arg, responseFormat: Arg, enableMemory: Arg,
                               sessionId: Arg, outcomes: seq<Attempt>)
    requires Covers(outcomes, c.maxRetries)
    requires ValidQueryArgs(query, responseFormat)
    requires forall i :: 0 <= i < c.maxRetries ==> outcomes[i].TransientFault?
    requires outcomes[c.maxRetries].TransientFault? && outcomes[c.maxRetries].kind == Timeout
    ensures var run := NaturalQuery(c, query, responseFormat, enableMemory, sessionId, outcomes);
            && run.attempts == c.maxRetries + 1 && run.waits == Backoff(c.maxRetries)
            && run.result == Failure(PlainError("Request timeout after " + c.timeoutText + "s"))
  {
    AllTransient(outcomes, c.maxRetries);
  }

  /** The request is always sent to the normalised base URL followed by the
      endpoint path, with no doubled '/' between them. */
  lemma UrlHasSingleSlash(baseUrl: Option<string>, envBaseUrl: Option<string>, authToken: Option<string>,
                          envAuthToken: Option<string>, timeoutText: string, maxRetries: nat)
    ensures var c := NewClient(baseUrl, envBaseUrl, authToken, envAuthToken, timeoutText, maxRetries);
            var url := c.baseUrl + NaturalQueryPath;
            && url[|c.baseUrl|] == '/'
            && (|c.baseUrl| > 0 ==> url[|c.baseUrl| - 1] != '/')
  {
  }
}

=== FILE: Retry.dfy ===
/**
 * The bounded exponential-backoff loop of `AmbivoAPIClient._make_request_with_retry`.
 *
 * The network is replaced by a sequence of attempt outcomes: `outcomes[i]` is what
 * the `i`-th call to the HTTP library produced. Instead of sleeping, the loop
 * reports the waits it would have slept, in seconds.
 */
module Retry {

  /** The transport failures the loop retries (`httpx.TimeoutException`,
      `httpx.ConnectError`, `httpx.ReadError`). */
  datatype TransientKind = Timeout | ConnectFailed | ReadFailed

  /** What a response body turned into under `response.json()`: the text
      `json.dumps(result, indent=2)` would produce, or the decoder's message. */
  datatype Body = Json(dump: string) | NotJson(message: string)

  /** The outcome of one call to the HTTP library. */
  datatype Attempt =
    | Responded(status: nat, text: string, body: Body)
    | TransientFault(kind: TransientKind, message: string)
    | OtherFault(message: string)

  /** Where the loop stopped: `final` is the response it returned or the
      failure it let escape; `attempts` counts calls made; `waits` lists the
      back-off sleeps in order. */
  datatype RetryResult = RetryResult(final: Attempt, attempts: nat, waits: seq<nat>)

  function Pow2(n: nat): (r: nat)
    ensures r >= 1
  {
    if n == 0 then 1 else 2 * Pow2(n - 1)
  }

  /** The waits after `k` retried failures: 2^0, 2^1, ..., 2^(k-1). */
  function Backoff(k: nat): (r: seq<nat>)
    ensures |r| == k
    ensures forall i :: 0 <= i < k ==> r[i] == Pow2(i)
  {
    if k == 0 then [] else Backoff(k - 1) + [Pow2(k - 1)]
  }

  /** The environment has an outcome ready for every attempt the loop may make. */
  predicate Covers(outcomes: seq<Attempt>, maxRetries: nat)
  {
    |outcomes| > maxRetries
  }

  /** The loop from attempt number `attempt` onwards. */
  function RetryFrom(outcomes: seq<Attempt>, attempt: nat, maxRetries: nat): (r: RetryResult)
    requires attempt <= maxRetries < |outcomes|
    ensures attempt < r.attempts <= maxRetries + 1
    ensures r.final == outcomes[r.attempts - 1]
    ensures forall i :: attempt <= i < r.attempts - 1 ==> outcomes[i].TransientFault?
    ensures r.final.TransientFault? ==> r.attempts == maxRetries + 1
    ensures |r.waits| == r.attempts - 1 - attempt
    ensures forall j :: 0 <= j < |r.waits| ==> r.waits[j] == Pow2(attempt + j)
    decreases maxRetries - attempt
  {
    if outcomes[attempt].TransientFault? && attempt < maxRetries then
      var rest := RetryFrom(outcomes, attempt + 1, maxRetries);
      RetryResult(rest.final, rest.attempts, [Pow2(attempt)] + rest.waits)
    else
      RetryResult(outcomes[attempt], attempt + 1, [])
  }

  /** The loop's result, described without reference to how it is computed:
      the first `attempts - 1` calls failed transiently and each was followed by
      its back-off wait; the last call either produced something other than a
      transient failure, or was the last one allowed. */
  ghost predicate RetrySpec(outcomes: seq<Attempt>, maxRetries: nat, r: RetryResult)
  {
    && 1 <= r.attempts <= maxRetries + 1
    && r.attempts <= |outcomes|
    && r.final == outcomes[r.attempts - 1]
    && (forall i :: 0 <= i < r.attempts - 1 ==> outcomes[i].TransientFault?)
    && (r.final.TransientFault? ==> r.attempts == maxRetries + 1)
    && r.waits == Backoff(r.attempts - 1)
  }

  /** `_make_request_with_retry`: at most `maxRetries + 1` calls; the first
      response is returned whatever its status; only transient failures are
      retried; attempt `i < maxRetries` that fails transiently is followed by a
      wait of `2^i` seconds; the last allowed attempt re-raises without waiting. */
  function MakeRequestWithRetry(outcomes: seq<Attempt>, maxRetries: nat): (r: RetryResult)
    requires Covers(outcomes, maxRetries)
    ensures RetrySpec(outcomes, maxRetries, r)
  {
    RetryFrom(outcomes, 0, maxRetries)
  }

  /** At most one result satisfies `RetrySpec`, so it is a complete description. */
  lemma RetrySpecUnique(outcomes: seq<Attempt>, maxRetries: nat, r: RetryResult, r': RetryResult)
    requires RetrySpec(outcomes, maxRetries, r) && RetrySpec(outcomes, maxRetries, r')
    ensures r == r'
  {
  }

  /** `k` transient failures followed by a response (`k <= maxRetries`): the
      response is returned after `k + 1` calls and the waits are 1, 2, ..., 2^(k-1). */
  lemma TransientThenResponse(outcomes: seq<Attempt>, maxRetries: nat, k: nat)
    requires Covers(outcomes, maxRetries) && k <= maxRetries
    requires forall i :: 0 <= i < k ==> outcomes[i].TransientFault?
    requires outcomes[k].Responded?
    ensures MakeRequestWithRetry(outcomes, maxRetries)
            == RetryResult(outcomes[k], k + 1, Backoff(k))
  {
    var r := MakeRequestWithRetry(outcomes, maxRetries);
    assert r.attempts - 1 <= k;
  }

  /** Every allowed call fails transiently: exactly `maxRetries + 1` calls are made,
      the last failure escapes, and there is no wait after it. */
  lemma AllTransient(outcomes: seq<Attempt>, maxRetries: nat)
    requires Covers(outcomes, maxRetries)
    requires forall i :: 0 <= i <= maxRetries ==> outcomes[i].TransientFault?
    ensures MakeRequestWithRetry(outcomes, maxRetries)
            == RetryResult(outcomes[maxRetries], maxRetries + 1, Backoff(maxRetries))
  {
  }

  /** A non-transient failure escapes from the call that raised it: after `k`
      transient failures (`k <= maxRetries`), call `k + 1` is the last one, and
      no wait follows it. */
  lemma OtherFaultNotRetried(outcomes: seq<Attempt>, maxRetries: nat, k: nat)
    requires Covers(outcomes, maxRetries) && k <= maxRetries
    requires forall i :: 0 <= i < k ==> outcomes[i].TransientFault?
    requires outcomes[k].OtherFault?
    ensures MakeRequestWithRetry(outcomes, maxRetries) == RetryResult(outcomes[k], k + 1, Backoff(k))
  {
    var r := MakeRequestWithRetry(outcomes, maxRetries);
    assert r.attempts - 1 <= k;
  }

  /** The total time slept before attempt `k` is 2^k - 1 seconds. */
  lemma {:induction false} BackoffTotal(k: nat)
    ensures Sum(Backoff(k)) == Pow2(k) - 1
  {
    if k > 0 {
      BackoffTotal(k - 1);
      SumAppend(Backoff(k - 1), Pow2(k - 1));
    }
  }

  function Sum(s: seq<nat>): nat
  {
    if s == [] then 0 else s[0] + Sum(s[1..])
  }

  lemma {:induction false} SumAppend(s: seq<nat>, x: nat)
    ensures Sum(s + [x]) == Sum(s) + x
  {
    if s != [] {
      assert (s + [x])[1..] == s[1..] + [x];
      SumAppend(s[1..], x);
    }
  }

  /** With the default of three retries and transient failures everywhere, the
      loop sleeps 1, 2 and 4 seconds and gives up after four calls. */
  lemma DefaultRetriesExample(outcomes: seq<Attempt>)
    requires |outcomes| == 4
    requires forall i :: 0 <= i < 4 ==> outcomes[i] == TransientFault(ConnectFailed, "refused")
    ensures MakeRequestWithRetry(outcomes, 3).attempts == 4
    ensures MakeRequestWithRetry(outcomes, 3).waits == [1, 2, 4]
    ensures MakeRequestWithRetry(outcomes, 3).final == TransientFault(ConnectFailed, "refused")
  {
    AllTransient(outcomes, 3);
    assert Backoff(3) == [1, 2, 4];
  }
}

=== FILE: Server.dfy ===
/**
 * The request handlers of `main.py` that carry logic: the `Authorization`
 * header parser, the set-call-restore discipline that scopes a request's token
 * onto the shared client, and the join of result texts. Requests are handled
 * one at a time; the shared client is threaded through as a value.
 */
module Server {
  import opened Base
  import opened Text
  import opened Retry
  import opened Client
  import opened Tools

  const BearerPrefix: string := "Bearer "

  /** What a handler sends back. `QueryAnswered` and `ToolAnswered` carry
      `success: True`, `QueryRejected` carries `success: False`; `HttpError`
      is a raised `HTTPException`. Timestamps are not modelled. */
  datatype Reply =
    | QueryAnswered(query: string, result: string, responseFormat: string)
    | QueryRejected(debug: string, query: string)
    | ToolsListed
    | ToolAnswered(result: string, toolName: string)
    | HttpError(status: nat, detail: string)

  /** A handler's reply, the shared client afterwards, whether the tool
      dispatcher ran, and the upstream traffic it caused. */
  datatype Handled = Handled(reply: Reply, client: ClientState, toolCalled: bool, request: Option<Request>, attempts: nat)

  /** `get_auth_token`: the token after a `"Bearer "` prefix, or a 401. */
  function GetAuthToken(authorization: Option<string>): (r: Result<string, Reply>)
    ensures r.Success? <==> authorization.Some? && BearerPrefix <= authorization.value && |authorization.value| > |BearerPrefix|
    ensures r.Success? ==> r.value != "" && BearerPrefix + r.value == authorization.value
    ensures r.Failure? ==> r.error.HttpError? && r.error.status == 401
    ensures !NonEmpty(authorization) ==> r == Failure(HttpError(401, "Authorization header required"))
  {
    if !NonEmpty(authorization) then Failure(HttpError(401, "Authorization header required"))
    else if !(BearerPrefix <= authorization.value) then Failure(HttpError(401, "Bearer token required"))
    else
      var token := authorization.value[|BearerPrefix|..];
      assert authorization.value == BearerPrefix + token;
      if token == "" then Failure(HttpError(401, "Token cannot be empty")) else Success(token)
  }

  /** Prefixing a non-empty token with `"Bearer "` and parsing it back gives the token. */
  lemma BearerRoundTrip(token: string)
    requires token != ""
    ensures GetAuthToken(Some(BearerPrefix + token)) == Success(token)
  {
    assert BearerPrefix <= BearerPrefix + token;
  }

  /** The header the client sends upstream is one the server would accept,
      and it carries the same token. */
  lemma HeaderRoundTrip(token: Option<string>)
    requires NonEmpty(token)
    ensures GetAuthToken(Some(Headers(token)["Authorization"])) == Success(token.value)
  {
    BearerRoundTrip(token.value);
  }

  /** The text the handlers' loop accumulates: each item's text followed by a newline. */
  function Lines(contents: seq<TextContent>): string
  {
    if contents == [] then "" else contents[0].text + "\n" + Lines(contents[1..])
  }

  /** One step of the loop: appending an item appends its text and a newline. */
  lemma {:induction false} LinesAppend(contents: seq<TextContent>, item: TextContent)
    ensures Lines(contents + [item]) == Lines(contents) + item.text + "\n"
  {
    if contents != [] {
      assert (contents + [item])[1..] == contents[1..] + [item];
      LinesAppend(contents[1..], item);
    }
  }

  /** `response_text.strip()` after the loop. No whitespace is left at either
      end, and a single item joins to its own stripped text: the newline the
      loop adds vanishes. */
  function JoinTexts(contents: seq<TextContent>): (r: string)
    ensures r == [] || (!IsSpace(r[0]) && !IsSpace(r[|r| - 1]))
    ensures contents == [] ==> r == []
    ensures |contents| == 1 ==> r == Strip(contents[0].text)
  {
    if |contents| == 1 then
      assert Lines(contents) == contents[0].text + "\n";
      assert AllSpace("\n");
      StripAppendSpace(contents[0].text, "\n");
      Strip(Lines(contents))
    else
      Strip(Lines(contents))
  }

  /** The token left on the client by the `finally` block: the original one
      when it was a real token, and `None` (never an empty string) otherwise. */
  function RestoredToken(original: Option<string>): (r: Option<string>)
    ensures NonEmpty(r) <==> NonEmpty(original)
    ensures NonEmpty(original) ==> r == original
    ensures r.Some? ==> NonEmpty(r)
  {
    if NonEmpty(original) then original else None
  }

  /** The shared client after a handler: untouched when the request's token was
      never installed, otherwise back to its original token (or `None`). */
  predicate Restores(c: ClientState, installed: bool, after: ClientState)
  {
    after == if installed then c.(authToken := RestoredToken(c.authToken)) else c
  }

  /** `GET /tools`. */
  function ListTools(c: ClientState, authorization: Option<string>): (h: Handled)
    ensures h.request.None? && h.attempts == 0 && !h.toolCalled
    ensures GetAuthToken(authorization).Failure? ==> h.reply == GetAuthToken(authorization).error && h.client == c
    ensures GetAuthToken(authorization).Success? ==>
              var accepted := |GetAuthToken(authorization).value| >= MinTokenLength;
              && Restores(c, accepted, h.client)
              && h.reply == (if accepted then ToolsListed else HttpError(500, InvalidTokenFormat))
  {
    match GetAuthToken(authorization)
    case Failure(reply) => Handled(reply, c, false, None, 0)
    case Success(token) =>
      match SetAuthToken(c, Str(token))
      case Failure(e) => Handled(HttpError(500, Message(e)), c, false, None, 0)
      case Success(_) => Handled(ToolsListed, c.(authToken := RestoredToken(c.authToken)), false, None, 0)
  }

  /** `POST /tools`. The tool runs with the request's token installed; whatever
      it does to the token (including `set_auth_token`) is undone afterwards. */
  function ExecuteTool(c: ClientState, authorization: Option<string>, name: string, arguments: map<string, Arg>,
                       outcomes: seq<Attempt>): (h: Handled)
    requires Covers(outcomes, c.maxRetries)
    ensures GetAuthToken(authorization).Failure? ==> h.reply == GetAuthToken(authorization).error && h.client == c
    ensures h.toolCalled <==> GetAuthToken(authorization).Success? && |GetAuthToken(authorization).value| >= MinTokenLength
    ensures Restores(c, h.toolCalled, h.client)
    ensures GetAuthToken(authorization).Success? && !h.toolCalled ==> h.reply == HttpError(500, InvalidTokenFormat)
    ensures h.toolCalled ==> h.reply.ToolAnswered? && h.reply.toolName == name
    ensures !h.toolCalled ==> h.request.None? && h.attempts == 0
    ensures h.request.Some? ==> "Authorization" in h.request.value.headers
                                && h.request.value.headers["Authorization"] == authorization.value
  {
    match GetAuthToken(authorization)
    case Failure(reply) => Handled(reply, c, false, None, 0)
    case Success(token) =>
      match SetAuthToken(c, Str(token))
      case Failure(e) => Handled(HttpError(500, Message(e)), c, false, None, 0)
      case Success(scoped) =>
        var call := HandleCallTool(scoped, name, Some(arguments), outcomes);
        Handled(ToolAnswered(JoinTexts(call.contents), name),
                call.client.(authToken := RestoredToken(c.authToken)), true, call.request, call.attempts)
  }

  /** The arguments `POST /query` passes to the `natural_query` tool. */
  function QueryToolArgs(query: string, responseFormat: string): map<string, Arg>
  {
    map["query" := Str(query), "response_format" := Str(responseFormat)]
  }

  /** `POST /query`. The header is checked inline (a missing or malformed one
      is answered with `success: False`), the empty query raises inside the
      outer `try` and surfaces as a 500, and otherwise the `natural_query` tool
      runs with the header's token installed. */
  function NaturalLanguageQuery(c: ClientState, authorization: Option<string>, query: string, responseFormat: string,
                                outcomes: seq<Attempt>): (h: Handled)
    requires Covers(outcomes, c.maxRetries)
    ensures !NonEmpty(authorization) || !(BearerPrefix <= authorization.value) ==>
              h.reply.QueryRejected? && !h.toolCalled && h.client == c
    ensures Restores(c, h.toolCalled, h.client)
    ensures h.toolCalled <==> NonEmpty(authorization) && BearerPrefix <= authorization.value && query != ""
                              && |authorization.value| - |BearerPrefix| >= MinTokenLength
    ensures h.toolCalled ==> h.reply.QueryAnswered? && h.reply.query == query && h.reply.responseFormat == responseFormat
    ensures NonEmpty(authorization) && BearerPrefix <= authorization.value && query == ""
            ==> h.reply == HttpError(500, "400: Query parameter is required")
    ensures NonEmpty(authorization) && BearerPrefix <= authorization.value && query != ""
            && |authorization.value| - |BearerPrefix| < MinTokenLength
            ==> h.reply == HttpError(500, InvalidTokenFormat)
    ensures !h.toolCalled ==> h.request.None? && h.attempts == 0
    ensures h.request.Some? ==> "Authorization" in h.request.value.headers
                                && h.request.value.headers["Authorization"] == authorization.value
  {
    if !NonEmpty(authorization) then
      Handled(QueryRejected("No authorization header received", query), c, false, None, 0)
    else if !(BearerPrefix <= authorization.value) then
      Handled(QueryRejected("Authorization header format wrong: '" + authorization.value + "'", query), c, false, None, 0)
    else
      var token := authorization.value[|BearerPrefix|..];
      assert authorization.value == BearerPrefix + token;
      if query == "" then
        Handled(HttpError(500, "400: Query parameter is required"), c, false, None, 0)
      else
        match SetAuthToken(c, Str(token))
        case Failure(e) => Handled(HttpError(500, Message(e)), c, false, None, 0)
        case Success(scoped) =>
          var call := HandleCallTool(scoped, "natural_query", Some(QueryToolArgs(query, responseFormat)), outcomes);
          Handled(QueryAnswered(query, JoinTexts(call.contents), responseFormat),
                  call.client.(authToken := RestoredToken(c.authToken)), true, call.request, call.attempts)
  }

  /** The reply text of `POST /tools` is the dispatcher's single text, stripped,
      and what goes upstream is what the dispatcher sent under the header's token. */
  lemma ExecuteToolText(c: ClientState, authorization: Option<string>, name: string, arguments: map<string, Arg>,
                        outcomes: seq<Attempt>)
    requires Covers(outcomes, c.maxRetries)
    requires GetAuthToken(authorization).Success? && |GetAuthToken(authorization).value| >= MinTokenLength
    ensures var scoped := c.(authToken := Some(GetAuthToken(authorization).value));
            var h := ExecuteTool(c, authorization, name, arguments, outcomes);
            && h.reply == ToolAnswered(Strip(HandleCallTool(scoped, name, Some(arguments), outcomes).contents[0].text), name)
            && h.request == HandleCallTool(scoped, name, Some(arguments), outcomes).request
  {
  }

  /** A shared client that holds a real token gets it back after every
      request; one that held none (or an empty one) ends up with `None`. No
      request's token outlives the request. */
  lemma TokenDoesNotLeak(c: ClientState, authorization: Option<string>, name: string, arguments: map<string, Arg>,
                         query: string, responseFormat: string, outcomes: seq<Attempt>)
    requires Covers(outcomes, c.maxRetries)
    ensures var after := [ListTools(c, authorization).client,
                          ExecuteTool(c, authorization, name, arguments, outcomes).client,
                          NaturalLanguageQuery(c, authorization, query, responseFormat, outcomes).client];
            forall i :: 0 <= i < 3 ==>
              && after[i].(authToken := c.authToken) == c
              && (NonEmpty(c.authToken) ==> after[i].authToken == c.authToken)
              && (!NonEmpty(c.authToken) ==> !NonEmpty(after[i].authToken))
  {
  }

  /** A header token the client rejects changes nothing and is reported as a 500. */
  lemma ShortHeaderTokenRejected(c: ClientState, token: string, name: string, arguments: map<string, Arg>,
                                 outcomes: seq<Attempt>)
    requires Covers(outcomes, c.maxRetries)
    requires 0 < |token| < MinTokenLength
    ensures ExecuteTool(c, Some(BearerPrefix + token), name, arguments, outcomes)
            == Handled(HttpError(500, "Invalid token format"), c, false, None, 0)
  {
    BearerRoundTrip(token);
  }

  /** With an acceptable bearer token and a non-empty query, `POST /query`
      answers with the stripped text of the `natural_query` tool run under the
      header's token, and sends exactly the request that run sends. */
  lemma QueryReplyText(c: ClientState, token: string, query: string, responseFormat: string,
                       outcomes: seq<Attempt>)
    requires Covers(outcomes, c.maxRetries)
    requires |token| >= MinTokenLength && query != ""
    ensures var d := Dispatch(c.(authToken := Some(token)), "natural_query", Some(QueryToolArgs(query, responseFormat)), outcomes);
            var h := NaturalLanguageQuery(c, Some(BearerPrefix + token), query, responseFormat, outcomes);
            && h.reply == QueryAnswered(query, Strip(Render(d.outcome)), responseFormat)
            && h.request == d.request && h.attempts == d.attempts
  {
    var auth := BearerPrefix + token;
    assert BearerPrefix <= auth && auth[|BearerPrefix|..] == token;
  }

  /** The arguments `POST /query` hands to the tool, as the tool reads them. */
  lemma QueryArgs(query: string, responseFormat: string)
    ensures var args := QueryToolArgs(query, responseFormat);
            && Get(args, "query") == Str(query)
            && "response_format" in args && args["response_format"] == Str(responseFormat)
            && Get(args, "enable_memory") == Null && Get(args, "session_id") == Null
  {
  }

  /** The tool's verdict on a whitespace-only query from `POST /query`. */
  lemma BlankQueryDispatch(scoped: ClientState, query: string, responseFormat: string, outcomes: seq<Attempt>)
    requires Covers(outcomes, scoped.maxRetries) && NonEmpty(scoped.authToken)
    requires query != "" && AllSpace(query)
    ensures var args := QueryToolArgs(query, responseFormat);
            Dispatch(scoped, "natural_query", Some(args), outcomes).outcome == QueryFailed(QueryEmpty)
  {
    var args := QueryToolArgs(query, responseFormat);
    QueryArgs(query, responseFormat);
    assert CheckQuery(Str(query), Str(responseFormat)) == Some(ValueError(QueryEmpty));
    QueryValidationText(scoped, args, outcomes);
  }

  /** The tool's verdict on a valid query from `POST /query` when the upstream
      answers with JSON on the first call. */
  lemma FirstResponseDispatch(scoped: ClientState, query: string, responseFormat: string, outcomes: seq<Attempt>)
    requires Covers(outcomes, scoped.maxRetries) && NonEmpty(scoped.authToken)
    requires ValidQueryArgs(Str(query), Str(responseFormat))
    requires outcomes[0].Responded? && 200 <= outcomes[0].status < 300 && outcomes[0].body.Json?
    ensures var d := Dispatch(scoped, "natural_query", Some(QueryToolArgs(query, responseFormat)), outcomes);
            d.outcome == QueryResults(outcomes[0].body.dump) && d.attempts == 1
  {
    var args := QueryToolArgs(query, responseFormat);
    QueryArgs(query, responseFormat);
    ValidatedQueryIsSent(scoped, args, outcomes);
    TransientThenResponse(outcomes, scoped.maxRetries, 0);
  }

  /** A whitespace-only query passes the handler's own check, reaches the tool,
      and comes back as a successful reply carrying the client's complaint. */
  lemma BlankQueryReachesTool(c: ClientState, token: string, query: string, responseFormat: string,
                              outcomes: seq<Attempt>)
    requires Covers(outcomes, c.maxRetries)
    requires |token| >= MinTokenLength
    requires query != "" && AllSpace(query)
    ensures NaturalLanguageQuery(c, Some(BearerPrefix + token), query, responseFormat, outcomes).reply
            == QueryAnswered(query, QueryFailedPrefix + QueryEmpty, responseFormat)
  {
    BlankQueryDispatch(c.(authToken := Some(token)), query, responseFormat, outcomes);
    assert QueryEmpty[|QueryEmpty| - 1] == 'y';
    FailureTextStripped(QueryEmpty);
    QueryReplyText(c, token, query, responseFormat, outcomes);
  }

  /** A query-failure text whose message ends in a non-blank character is its own `strip()`. */
  lemma FailureTextStripped(message: string)
    requires message != [] && !IsSpace(message[|message| - 1])
    ensures Strip(Render(QueryFailed(message))) == QueryFailedPrefix + message
  {
    var text := QueryFailedPrefix + message;
    assert text[0] == 'E' && text[|text| - 1] == message[|message| - 1];
    StripNoOuterSpace(text);
  }

  /** A results text whose dump ends in a non-blank character is its own `strip()`. */
  lemma ResultsTextStripped(dump: string)
    requires dump != [] && !IsSpace(dump[|dump| - 1])
    ensures Strip(Render(QueryResults(dump))) == ResultsPrefix + dump
  {
    var text := ResultsPrefix + dump;
    assert text[0] == 'N' && text[|text| - 1] == dump[|dump| - 1];
    StripNoOuterSpace(text);
  }

  /** A valid query whose first upstream call returns 2xx JSON is answered with
      the results label followed by the serialised result, after one call. */
  lemma ImmediateResults(c: ClientState, token: string, query: string, responseFormat: string, outcomes: seq<Attempt>)
    requires Covers(outcomes, c.maxRetries)
    requires |token| >= MinTokenLength
    requires ValidQueryArgs(Str(query), Str(responseFormat))
    requires outcomes[0].Responded? && 200 <= outcomes[0].status < 300 && outcomes[0].body.Json?
    requires var dump := outcomes[0].body.dump; dump != [] && !IsSpace(dump[|dump| - 1])
    ensures var h := NaturalLanguageQuery(c, Some(BearerPrefix + token), query, responseFormat, outcomes);
            && h.reply == QueryAnswered(query, ResultsPrefix + outcomes[0].body.dump, responseFormat)
            && h.attempts == 1
  {
    var scoped := c.(authToken := Some(token));
    FirstResponseDispatch(scoped, query, responseFormat, outcomes);
    ResultsTextStripped(outcomes[0].body.dump);
    QueryReplyText(c, token, query, responseFormat, outcomes);
  }

  /** The scenario's upstream body, and the text `json.dumps(result, indent=2)` makes of it. */
  const CountBody: string := "{\"count\": 5}"
  const CountDump: string := "{\n  \"count\": 5\n}"

  /** The end-to-end scenario: the bearer token `valid-token-1234`, the query
      `"count leads"` in `natural` format, and an upstream answering
      `{"count": 5}` on the first call. */
  lemma CountLeadsExample(c: ClientState, outcomes: seq<Attempt>)
    requires Covers(outcomes, c.maxRetries)
    requires outcomes[0] == Responded(200, CountBody, Json(CountDump))
    ensures var h := NaturalLanguageQuery(c, Some(BearerPrefix + "valid-token-1234"), "count leads", "natural", outcomes);
            && h.reply == QueryAnswered("count leads", ResultsPrefix + CountDump, "natural")
            && h.attempts == 1
  {
    assert ValidQueryArgs(Str("count leads"), Str("natural")) by {
      assert !IsSpace("count leads"[0]);
    }
    assert CountDump[|CountDump| - 1] == '}';
    ImmediateResults(c, "valid-token-1234", "count leads", "natural", outcomes);
  }
}

=== FILE: Text.dfy ===
/**
 * The string operations the server relies on, with Python's semantics:
 * `str.strip()` (both ends, Python's whitespace set), `str.rstrip("/")`,
 * prefix tests and the decimal rendering of a status code.
 */
module Text {

  /** Python's `str.isspace` set: the characters `str.strip()` removes. */
  predicate IsSpace(c: char)
  {
    c in {' ', '\t', '\n', '\r', '\U{B}', '\U{C}', '\U{1C}', '\U{1D}', '\U{1E}', '\U{1F}',
          '\U{85}', '\U{A0}', '\U{1680}', '\U{2000}', '\U{2001}', '\U{2002}', '\U{2003}',
          '\U{2004}', '\U{2005}', '\U{2006}', '\U{2007}', '\U{2008}', '\U{2009}', '\U{200A}',
          '\U{2028}', '\U{2029}', '\U{202F}', '\U{205F}', '\U{3000}'}
  }

  /** Every character of `s` is whitespace (true of the empty string). */
  predicate AllSpace(s: string)
  {
    forall i :: 0 <= i < |s| ==> IsSpace(s[i])
  }

  /** Removes leading whitespace: the longest whitespace prefix goes, the rest is kept. */
  function TrimStart(s: string): (r: string)
    ensures |r| <= |s| && r == s[|s| - |r|..]
    ensures AllSpace(s[..|s| - |r|])
    ensures r == [] || !IsSpace(r[0])
  {
    if |s| > 0 && IsSpace(s[0]) then
      var r := TrimStart(s[1..]);
      assert s[..|s| - |r|] == [s[0]] + s[1..][..|s| - 1 - |r|];
      r
    else s
  }

  /** Removes trailing whitespace: the longest whitespace suffix goes, the rest is kept. */
  function TrimEnd(s: string): (r: string)
    ensures |r| <= |s| && r == s[..|r|]
    ensures AllSpace(s[|r|..])
    ensures r == [] || !IsSpace(r[|r| - 1])
  {
    if |s| > 0 && IsSpace(s[|s| - 1]) then
      var r := TrimEnd(s[..|s| - 1]);
      assert s[|r|..] == s[..|s| - 1][|r|..] + [s[|s| - 1]];
      r
    else s
  }

  /** `r` is the slice of `s` that starts at `k`, and only whitespace follows it. */
  predicate KeptSlice(s: string, k: int, r: string)
  {
    0 <= k && k + |r| <= |s| && r == s[k..k + |r|] && AllSpace(s[k + |r|..])
  }

  /** Python's `s.strip()`: the part of `s` after its leading whitespace (the
      `k` characters `TrimStart` removes), with a whitespace-only suffix
      removed, leaving no whitespace at either end. */
  function Strip(s: string): (r: string)
    ensures r == [] || (!IsSpace(r[0]) && !IsSpace(r[|r| - 1]))
    ensures KeptSlice(s, |s| - |TrimStart(s)|, r)
  {
    var t := TrimStart(s);
    var r := TrimEnd(t);
    KeptMiddle(s, t, r);
    assert r != [] ==> r[0] == t[0];
    r
  }

  /** A prefix `r` of a suffix `t` of `s` is a slice of `s`, and what follows
      `r` in `t` is what follows it in `s`. */
  lemma KeptMiddle(s: string, t: string, r: string)
    requires |t| <= |s| && t == s[|s| - |t|..]
    requires |r| <= |t| && r == t[..|r|] && AllSpace(t[|r|..])
    ensures KeptSlice(s, |s| - |t|, r)
  {
    var k := |s| - |t|;
    assert t[|r|..] == s[k + |r|..];
  }

  /** `s.strip()` is empty exactly when `s` is all whitespace. */
  lemma StripEmptyIffAllSpace(s: string)
    ensures Strip(s) == [] <==> AllSpace(s)
  {
    var a := TrimStart(s);
    if Strip(s) == [] {
      assert a == [];
      forall i | 0 <= i < |s|
        ensures IsSpace(s[i])
      {
        assert s[i] == s[..|s|][i];
      }
    } else {
      var r := Strip(s);
      assert r[0] == a[0] == s[|s| - |a|];
    }
  }

  /** Trailing whitespace is invisible to `TrimEnd`. */
  lemma {:induction false} TrimEndAppendSpace(s: string, w: string)
    requires AllSpace(w)
    ensures TrimEnd(s + w) == TrimEnd(s)
    decreases |w|
  {
    if |w| > 0 {
      var w' := w[..|w| - 1];
      assert (s + w)[..|s + w| - 1] == s + w';
      assert IsSpace((s + w)[|s + w| - 1]);
      TrimEndAppendSpace(s, w');
    } else {
      assert s + w == s;
    }
  }

  /** Trailing whitespace is invisible to `strip()`. */
  lemma StripAppendSpace(s: string, w: string)
    requires AllSpace(w)
    ensures Strip(s + w) == Strip(s)
  {
    var a := TrimStart(s);
    if a == [] {
      assert AllSpace(s);
      StripEmptyIffAllSpace(s);
      assert AllSpace(s + w);
      StripEmptyIffAllSpace(s + w);
    } else {
      TrimStartKeepsTail(s, w);
      TrimEndAppendSpace(a, w);
    }
  }

  /** Appending text after a non-blank string does not change where `TrimStart` stops. */
  lemma {:induction false} TrimStartKeepsTail(s: string, w: string)
    requires TrimStart(s) != []
    ensures TrimStart(s + w) == TrimStart(s) + w
  {
    if |s| > 0 && IsSpace(s[0]) {
      assert (s + w)[1..] == s[1..] + w;
      TrimStartKeepsTail(s[1..], w);
    }
  }

  /** A string with no whitespace at either end is its own `strip()`. */
  lemma StripNoOuterSpace(s: string)
    requires s != [] && !IsSpace(s[0]) && !IsSpace(s[|s| - 1])
    ensures Strip(s) == s
  {
    assert TrimStart(s) == s;
  }

  /** Python's `s.rstrip("/")`: drops every trailing '/' and nothing else. */
  function TrimTrailingSlashes(s: string): (r: string)
    ensures |r| <= |s| && r == s[..|r|]
    ensures forall i :: |r| <= i < |s| ==> s[i] == '/'
    ensures r == [] || r[|r| - 1] != '/'
  {
    if |s| > 0 && s[|s| - 1] == '/' then TrimTrailingSlashes(s[..|s| - 1]) else s
  }

  /** The characterisation above determines the result: any prefix of `s` that
      stops before the trailing run of '/' and does not itself end in '/' is it. */
  lemma TrimTrailingSlashesUnique(s: string, b: string)
    requires |b| <= |s| && b == s[..|b|]
    requires forall i :: |b| <= i < |s| ==> s[i] == '/'
    requires b == [] || b[|b| - 1] != '/'
    ensures TrimTrailingSlashes(s) == b
  {
    var r := TrimTrailingSlashes(s);
    assert |b| > 0 ==> b[|b| - 1] == s[|b| - 1];
    assert |r| > 0 ==> r[|r| - 1] == s[|r| - 1];
  }

  /** `rstrip("/")` is idempotent. */
  lemma TrimTrailingSlashesIdempotent(s: string)
    ensures TrimTrailingSlashes(TrimTrailingSlashes(s)) == TrimTrailingSlashes(s)
  {
  }

  predicate IsDigit(c: char)
  {
    '0' <= c <= '9'
  }

  predicate AllDigits(s: string)
  {
    forall i :: 0 <= i < |s| ==> IsDigit(s[i])
  }

  function DigitChar(d: nat): (c: char)
    requires d < 10
    ensures IsDigit(c) && c as int - '0' as int == d
  {
    (d + '0' as int) as char
  }

  /** Python's `str(n)` for a non-negative integer: decimal, no leading zeros. */
  function NatToString(n: nat): (r: string)
    ensures |r| > 0 && AllDigits(r)
    ensures r[0] == '0' ==> n == 0
  {
    if n < 10 then [DigitChar(n)] else NatToString(n / 10) + [DigitChar(n % 10)]
  }

  /** The value of a string of decimal digits. */
  function ParseNat(s: string): nat
    requires AllDigits(s)
  {
    if |s| == 0 then 0 else ParseNat(s[..|s| - 1]) * 10 + (s[|s| - 1] as int - '0' as int)
  }

  /** Reading back a rendered number gives the number. */
  lemma {:induction false} ParseNatToString(n: nat)
    ensures ParseNat(NatToString(n)) == n
  {
    if n >= 10 {
      var r := NatToString(n);
      assert r[..|r| - 1] == NatToString(n / 10);
      ParseNatToString(n / 10);
    }
  }

  /** The length of the longest run of digits at the start of `s`. */
  function DigitRun(s: string): (k: nat)
    ensures k <= |s| && AllDigits(s[..k])
    ensures k == |s| || !IsDigit(s[k])
  {
    if |s| > 0 && IsDigit(s[0]) then
      var k := 1 + DigitRun(s[1..]);
      assert s[..k] == [s[0]] + s[1..][..k - 1];
      k
    else 0
  }

  /** The digit run of `d + t` is `d` when `t` starts with a non-digit. */
  lemma DigitRunStopsAtSeparator(d: string, t: string)
    requires AllDigits(d)
    requires |t| > 0 && !IsDigit(t[0])
    ensures DigitRun(d + t) == |d|
  {
    var k := DigitRun(d + t);
    assert (d + t)[|d|] == t[0];
  }
}

=== FILE: Tools.dfy ===
/**
 * `handle_call_tool`: maps a tool name and an argument map to exactly one text
 * item, never raising. The decision is made on a typed outcome (`Dispatch`);
 * the text is produced from it at the boundary (`Render`), and `Decode`
 * recovers the outcome from the text, so callers that match on prefixes lose
 * nothing.
 */
module Tools {
  import opened Base
  import opened Text
  import opened Retry
  import opened Client

  const TokenSetText: string := "Authentication token set successfully. " + "You can now use other tools to query the Ambivo API."
  const TokenMissingText: string := "Error: Authentication token is required"
  const AuthRequiredText: string := "Error: Authentication required. " + "Please use the 'set_auth_token' tool first."
  const QueryMissingText: string := "Error: Query parameter is required"
  const UnknownToolPrefix: string := "Unknown tool: "
  const ResultsPrefix: string := "Natural Query Results:\n\n"
  const ApiErrorPrefix: string := "API Error: HTTP "
  const QueryFailedPrefix: string := "Error executing natural query: "
  const ValidationPrefix: string := "Validation Error: "
  const UnexpectedPrefix: string := "Unexpected error: "

  /** `TextContent(type, text)`. */
  datatype TextContent = TextContent(kind: string, text: string)

  /** What a tool call came to, before it is turned into text. */
  datatype ToolOutcome =
    | TokenSet
    | TokenMissing
    | AuthRequired
    | QueryMissing
    | QueryResults(dump: string)
    | ApiError(code: nat, body: string)
    | QueryFailed(message: string)
    | ValidationFailed(message: string)
    | Unexpected(message: string)
    | UnknownTool(name: string)

  /** The text the source returns for each outcome. */
  function Render(o: ToolOutcome): string
  {
    match o
    case TokenSet => TokenSetText
    case TokenMissing => TokenMissingText
    case AuthRequired => AuthRequiredText
    case QueryMissing => QueryMissingText
    case QueryResults(dump) => ResultsPrefix + dump
    case ApiError(code, body) => ApiErrorPrefix + NatToString(code) + ": " + body
    case QueryFailed(m) => QueryFailedPrefix + m
    case ValidationFailed(m) => ValidationPrefix + m
    case Unexpected(m) => UnexpectedPrefix + m
    case UnknownTool(name) => UnknownToolPrefix + name
  }

  /** Reads a tool result text back into the outcome it reports. */
  function Decode(text: string): Option<ToolOutcome>
  {
    if text == TokenSetText then Some(TokenSet)
    else if text == TokenMissingText then Some(TokenMissing)
    else if text == AuthRequiredText then Some(AuthRequired)
    else if text == QueryMissingText then Some(QueryMissing)
    else if ResultsPrefix <= text then Some(QueryResults(text[|ResultsPrefix|..]))
    else if ApiErrorPrefix <= text then DecodeApiError(text[|ApiErrorPrefix|..])
    else if QueryFailedPrefix <= text then Some(QueryFailed(text[|QueryFailedPrefix|..]))
    else if ValidationPrefix <= text then Some(ValidationFailed(text[|ValidationPrefix|..]))
    else if UnexpectedPrefix <= text then Some(Unexpected(text[|UnexpectedPrefix|..]))
    else if UnknownToolPrefix <= text then Some(UnknownTool(text[|UnknownToolPrefix|..]))
    else None
  }

  /** Reads `"{code}: {body}"`. */
  function DecodeApiError(rest: string): Option<ToolOutcome>
  {
    var k := DigitRun(rest);
    if 0 < k && ": " <= rest[k..] then Some(ApiError(ParseNat(rest[..k]), rest[k + 2..])) else None
  }

  lemma DecodeApiErrorRender(code: nat, body: string)
    ensures DecodeApiError(NatToString(code) + ": " + body) == Some(ApiError(code, body))
  {
    var d := NatToString(code);
    var rest := d + ": " + body;
    assert rest == d + (": " + body);
    DigitRunStopsAtSeparator(d, ": " + body);
    assert rest[..|d|] == d;
    assert rest[|d|..] == ": " + body;
    ParseNatToString(code);
  }

  /** The first characters of the fixed texts, which keep them apart from each
      other and from every prefixed text. */
  lemma FixedTextHeads()
    ensures TokenSetText[0] == 'A' && TokenSetText[1] == 'u'
    ensures TokenMissingText[0] == 'E' && TokenMissingText[5] == ':' && TokenMissingText[7] == 'A'
    ensures AuthRequiredText[0] == 'E' && AuthRequiredText[5] == ':' && AuthRequiredText[7] == 'A'
    ensures QueryMissingText[0] == 'E' && QueryMissingText[5] == ':' && QueryMissingText[7] == 'Q'
    ensures TokenMissingText != AuthRequiredText
  {
    assert AuthRequiredText[22] == 'r';
    assert TokenMissingText[22] == 't';
  }

  /** `t` starts with `p`, and what follows it is `m`. */
  lemma SplitsAt(t: string, p: string, m: string)
    requires t == p + m
    ensures p <= t && t[|p|..] == m
  {
    assert t[..|p|] == p;
  }

  lemma DecodeQueryResults(dump: string)
    ensures Decode(Render(QueryResults(dump))) == Some(QueryResults(dump))
  {
    var t := Render(QueryResults(dump));
    SplitsAt(t, ResultsPrefix, dump);
    FixedTextHeads();
    assert t[0] == 'N';
  }

  lemma DecodeApiErrorText(code: nat, body: string)
    ensures Decode(Render(ApiError(code, body))) == Some(ApiError(code, body))
  {
    var t := Render(ApiError(code, body));
    assert t == ApiErrorPrefix + (NatToString(code) + ": " + body);
    SplitsAt(t, ApiErrorPrefix, NatToString(code) + ": " + body);
    FixedTextHeads();
    assert t[0] == 'A' && t[1] == 'P';
    assert t != TokenSetText && t != TokenMissingText && t != AuthRequiredText && t != QueryMissingText;
    assert !(ResultsPrefix <= t) by { assert ResultsPrefix[0] == 'N'; }
    DecodeApiErrorRender(code, body);
  }

  lemma DecodeQueryFailed(m: string)
    ensures Decode(Render(QueryFailed(m))) == Some(QueryFailed(m))
  {
    var t := Render(QueryFailed(m));
    SplitsAt(t, QueryFailedPrefix, m);
    FixedTextHeads();
    assert t[0] == 'E' && t[5] == ' ';
  }

  lemma DecodeValidationFailed(m: string)
    ensures Decode(Render(ValidationFailed(m))) == Some(ValidationFailed(m))
  {
    var t := Render(ValidationFailed(m));
    SplitsAt(t, ValidationPrefix, m);
    FixedTextHeads();
    assert t[0] == 'V';
  }

  lemma DecodeUnexpected(m: string)
    ensures Decode(Render(Unexpected(m))) == Some(Unexpected(m))
  {
    var t := Render(Unexpected(m));
    SplitsAt(t, UnexpectedPrefix, m);
    FixedTextHeads();
    assert t[0] == 'U' && t[2] == 'e';
  }

  lemma DecodeUnknownTool(name: string)
    ensures Decode(Render(UnknownTool(name))) == Some(UnknownTool(name))
  {
    var t := Render(UnknownTool(name));
    SplitsAt(t, UnknownToolPrefix, name);
    FixedTextHeads();
    assert t[0] == 'U' && t[2] == 'k';
  }

  /** The text of every outcome determines the outcome: the prefixes the
      source uses are distinct enough to tell each error class apart. */
  lemma DecodeRender(o: ToolOutcome)
    ensures Decode(Render(o)) == Some(o)
  {
    FixedTextHeads();
    match o
    case TokenSet =>
    case TokenMissing =>
    case AuthRequired =>
    case QueryMissing =>
    case QueryResults(dump) => DecodeQueryResults(dump);
    case ApiError(code, body) => DecodeApiErrorText(code, body);
    case QueryFailed(m) => DecodeQueryFailed(m);
    case ValidationFailed(m) => DecodeValidationFailed(m);
    case Unexpected(m) => DecodeUnexpected(m);
    case UnknownTool(name) => DecodeUnknownTool(name);
  }

  /** `Render` is one-to-one: different outcomes never produce the same text. */
  lemma RenderInjective(o: ToolOutcome, o': ToolOutcome)
    requires Render(o) == Render(o')
    ensures o == o'
  {
    DecodeRender(o);
    DecodeRender(o');
  }

  /** The result of one dispatch: the outcome, the client afterwards, and the
      request the client sent (if any) with the number of calls it made. */
  datatype Dispatched = Dispatched(outcome: ToolOutcome, client: ClientState, request: Option<Request>, attempts: nat)

  /** `arguments.get(key)`: a missing key reads as `None`. */
  function Get(args: map<string, Arg>, key: string): Arg
  {
    if key in args then args[key] else Null
  }

  /** `arguments.get("response_format", "both")`: the default applies only when
      the key is absent, not to an explicit `None`. */
  function FormatArg(args: map<string, Arg>): Arg
  {
    if "response_format" in args then args["response_format"] else Str("both")
  }

  /** The query branch's handlers: a status error becomes an API error, every
      other exception the generic query error. */
  function QueryOutcome(result: Result<string, Exc>): (o: ToolOutcome)
    ensures o.QueryResults? <==> result.Success?
    ensures o.ApiError? <==> result.Failure? && result.error.StatusError?
    ensures o.QueryResults? || o.ApiError? || o.QueryFailed?
    ensures o.QueryResults? ==> o.dump == result.value
    ensures o.ApiError? ==> o.code == result.error.code && o.body == result.error.text
    ensures o.QueryFailed? ==> o.message == Message(result.error)
  {
    match result
    case Success(dump) => QueryResults(dump)
    case Failure(e) => if e.StatusError? then ApiError(e.code, e.text) else QueryFailed(Message(e))
  }

  /** The arguments the handler reads: `arguments or {}`. */
  function ArgsOf(arguments: Option<map<string, Arg>>): map<string, Arg>
  {
    if arguments.None? then map[] else arguments.value
  }

  /** The decision part of `handle_call_tool`. */
  function Dispatch(c: ClientState, name: string, arguments: Option<map<string, Arg>>, outcomes: seq<Attempt>): (d: Dispatched)
    requires Covers(outcomes, c.maxRetries)
    // only the token may change, and only through `set_auth_token`
    ensures d.client.(authToken := c.authToken) == c
    ensures d.client != c ==> name == "set_auth_token" && d.outcome == TokenSet
    // nothing reaches the network outside a validated `natural_query`
    ensures d.request.None? ==> d.attempts == 0
    ensures d.request.Some? ==> name == "natural_query" && NonEmpty(c.authToken) && 1 <= d.attempts <= c.maxRetries + 1
    ensures d.request.Some? ==> d.request.value.headers == Headers(c.authToken)
    ensures d.request.Some? ==> "query" in d.request.value.payload && "response_format" in d.request.value.payload
                                && ValidQueryArgs(d.request.value.payload["query"], d.request.value.payload["response_format"])
    // the request carries the caller's query, format, memory flag and session
    ensures d.request.Some? ==>
              var args := ArgsOf(arguments);
              d.request.value == BuildRequest(c, Get(args, "query"), FormatArg(args), Get(args, "enable_memory"), Get(args, "session_id"))
    ensures name != "set_auth_token" && name != "natural_query" ==> d.outcome == UnknownTool(name)
  {
    var args := ArgsOf(arguments);
    if name == "set_auth_token" then
      var token := Get(args, "token");
      if !Truthy(token) then Dispatched(TokenMissing, c, None, 0)
      else match SetAuthToken(c, token)
        case Success(c') => Dispatched(TokenSet, c', None, 0)
        case Failure(e) =>
          if e.ValueError? then Dispatched(ValidationFailed(e.message), c, None, 0)
          else Dispatched(Unexpected(Message(e)), c, None, 0)
    else if name == "natural_query" then
      if !NonEmpty(c.authToken) then Dispatched(AuthRequired, c, None, 0)
      else
        var query := Get(args, "query");
        if !Truthy(query) then Dispatched(QueryMissing, c, None, 0)
        else
          var run := NaturalQuery(c, query, FormatArg(args), Get(args, "enable_memory"), Get(args, "session_id"), outcomes);
          Dispatched(QueryOutcome(run.result), c, run.request, run.attempts)
    else Dispatched(UnknownTool(name), c, None, 0)
  }

  /** What `handle_call_tool` returns, with the client afterwards and the
      outbound traffic it caused. */
  datatype CallResult = CallResult(contents: seq<TextContent>, client: ClientState, request: Option<Request>, attempts: nat)

  /** `handle_call_tool`: always exactly one `"text"` item, whose text decodes
      back to the dispatch outcome. */
  function HandleCallTool(c: ClientState, name: string, arguments: Option<map<string, Arg>>, outcomes: seq<Attempt>): (r: CallResult)
    requires Covers(outcomes, c.maxRetries)
    ensures |r.contents| == 1 && r.contents[0].kind == "text"
    ensures r.client.(authToken := c.authToken) == c
    ensures r.request.None? ==> r.attempts == 0
    ensures r.request.Some? ==> name == "natural_query" && r.request.value.headers == Headers(c.authToken)
    ensures r.request.Some? ==>
              var args := ArgsOf(arguments);
              r.request.value == BuildRequest(c, Get(args, "query"), FormatArg(args), Get(args, "enable_memory"), Get(args, "session_id"))
  {
    var d := Dispatch(c, name, arguments, outcomes);
    CallResult([TextContent("text", Render(d.outcome))], d.client, d.request, d.attempts)
  }

  /** The single text item reports the dispatch outcome faithfully: decoding it
      gives back exactly that outcome. */
  lemma CallTextDecodes(c: ClientState, name: string, arguments: Option<map<string, Arg>>, outcomes: seq<Attempt>)
    requires Covers(outcomes, c.maxRetries)
    ensures Decode(HandleCallTool(c, name, arguments, outcomes).contents[0].text)
            == Some(Dispatch(c, name, arguments, outcomes).outcome)
  {
    DecodeRender(Dispatch(c, name, arguments, outcomes).outcome);
  }

  /** An unknown name yields exactly `"Unknown tool: {name}"` and touches nothing. */
  lemma UnknownToolText(c: ClientState, name: string, arguments: Option<map<string, Arg>>, outcomes: seq<Attempt>)
    requires Covers(outcomes, c.maxRetries)
    requires name != "set_auth_token" && name != "natural_query"
    ensures HandleCallTool(c, name, arguments, outcomes)
            == CallResult([TextContent("text", "Unknown tool: " + name)], c, None, 0)
  {
  }

  /** `set_auth_token` without a (truthy) token: the fixed error text, state unchanged. */
  lemma MissingTokenChangesNothing(c: ClientState, args: map<string, Arg>, outcomes: seq<Attempt>)
    requires Covers(outcomes, c.maxRetries)
    requires !Truthy(Get(args, "token"))
    ensures HandleCallTool(c, "set_auth_token", Some(args), outcomes)
            == CallResult([TextContent("text", "Error: Authentication token is required")], c, None, 0)
  {
  }

  /** `set_auth_token` with a string token of at least ten characters installs
      it, changes nothing else, and reports success. */
  lemma SetTokenAccepted(c: ClientState, args: map<string, Arg>, token: string, outcomes: seq<Attempt>)
    requires Covers(outcomes, c.maxRetries)
    requires Get(args, "token") == Str(token) && |token| >= 10
    ensures var r := HandleCallTool(c, "set_auth_token", Some(args), outcomes);
            r.contents[0].text == TokenSetText && r.client == c.(authToken := Some(token))
  {
    var d := Dispatch(c, "set_auth_token", Some(args), outcomes);
    assert SetAuthToken(c, Str(token)) == Success(c.(authToken := Some(token)));
    assert d.outcome == TokenSet && d.client == c.(authToken := Some(token));
  }

  /** `set_auth_token` with a non-empty string shorter than ten characters
      reports the validation error and leaves the token alone. */
  lemma SetTokenTooShort(c: ClientState, args: map<string, Arg>, token: string, outcomes: seq<Attempt>)
    requires Covers(outcomes, c.maxRetries)
    requires Get(args, "token") == Str(token) && 0 < |token| < 10
    ensures var r := HandleCallTool(c, "set_auth_token", Some(args), outcomes);
            r.contents[0].text == ValidationPrefix + InvalidTokenFormat && r.client == c
  {
    var d := Dispatch(c, "set_auth_token", Some(args), outcomes);
    assert SetAuthToken(c, Str(token)) == Failure(ValueError(InvalidTokenFormat));
    assert d.outcome == ValidationFailed(InvalidTokenFormat) && d.client == c;
  }

  /** A truthy boolean or integer token fails inside `len()`; that is not a
      `ValueError`, so the outer generic handler reports it. */
  lemma SetTokenWrongType(c: ClientState, args: map<string, Arg>, outcomes: seq<Attempt>)
    requires Covers(outcomes, c.maxRetries)
    requires Truthy(Get(args, "token")) && !Get(args, "token").Str?
    ensures var r := HandleCallTool(c, "set_auth_token", Some(args), outcomes);
            r.contents[0].text == UnexpectedPrefix + ("object of type '" + TypeName(Get(args, "token")) + "' has no len()")
            && r.client == c
  {
    var token := Get(args, "token");
    var e := TypeError("object of type '" + TypeName(token) + "' has no len()");
    assert SetAuthToken(c, token) == Failure(e);
    var d := Dispatch(c, "set_auth_token", Some(args), outcomes);
    assert d.outcome == Unexpected(e.message) && d.client == c;
  }

  /** `natural_query` while no token is set: the authentication message and no
      client call, whatever the arguments. */
  lemma QueryNeedsToken(c: ClientState, arguments: Option<map<string, Arg>>, outcomes: seq<Attempt>)
    requires Covers(outcomes, c.maxRetries)
    requires !NonEmpty(c.authToken)
    ensures HandleCallTool(c, "natural_query", arguments, outcomes)
            == CallResult([TextContent("text", AuthRequiredText)], c, None, 0)
  {
  }

  /** `natural_query` with a token but no (truthy) query: the fixed error text. */
  lemma QueryParameterRequired(c: ClientState, args: map<string, Arg>, outcomes: seq<Attempt>)
    requires Covers(outcomes, c.maxRetries)
    requires NonEmpty(c.authToken) && !Truthy(Get(args, "query"))
    ensures HandleCallTool(c, "natural_query", Some(args), outcomes)
            == CallResult([TextContent("text", "Error: Query parameter is required")], c, None, 0)
  {
  }

  /** Validation failures inside `natural_query` are not "Validation Error"s at
      this level: the query branch's generic handler reports them, and no
      request is sent. A missing `response_format` means `"both"`. */
  lemma QueryValidationText(c: ClientState, args: map<string, Arg>, outcomes: seq<Attempt>)
    requires Covers(outcomes, c.maxRetries)
    requires NonEmpty(c.authToken) && Truthy(Get(args, "query"))
    requires !ValidQueryArgs(Get(args, "query"), FormatArg(args))
    ensures var fmt := FormatArg(args);
            var d := Dispatch(c, "natural_query", Some(args), outcomes);
            && CheckQuery(Get(args, "query"), fmt).Some?
            && d.outcome == QueryFailed(Message(CheckQuery(Get(args, "query"), fmt).value))
            && d.request.None? && d.attempts == 0 && d.client == c
  {
    var run := NaturalQuery(c, Get(args, "query"), FormatArg(args), Get(args, "enable_memory"), Get(args, "session_id"), outcomes);
    assert run.request.None? && run.result.Failure?;
  }

  /** `response_format` as the request carries it, for a token set and a
      query that passes validation: `"both"` when the key is absent, the given
      value when it is present, and an explicit `None` is not replaced by the
      default but rejected as an invalid format, with nothing sent. */
  lemma ResponseFormatDefault(c: ClientState, args: map<string, Arg>, outcomes: seq<Attempt>)
    requires Covers(outcomes, c.maxRetries) && NonEmpty(c.authToken)
    requires Get(args, "query").Str? && !AllSpace(Get(args, "query").s) && |Get(args, "query").s| <= MaxQueryLength
    ensures var d := Dispatch(c, "natural_query", Some(args), outcomes);
            && ("response_format" !in args ==> d.request.Some? && d.request.value.payload["response_format"] == Str("both"))
            && ("response_format" in args && IsResponseFormat(args["response_format"])
                ==> d.request.Some? && d.request.value.payload["response_format"] == args["response_format"])
            && ("response_format" in args && args["response_format"] == Null
                ==> d.outcome == QueryFailed(InvalidResponseFormat) && d.request.None?)
  {
    var q := Get(args, "query");
    assert q.s != "";
    if "response_format" !in args {
      assert IsResponseFormat(Str("both"));
    } else if args["response_format"] == Null {
      assert CheckQuery(q, Null) == Some(ValueError(InvalidResponseFormat));
    }
  }

  /** A validated query reaches the network as the request built from the
      caller's arguments, with the client's token in its `Authorization` header, and its outcome is decided by the attempt the
      retry loop stopped at. */
  lemma ValidatedQueryIsSent(c: ClientState, args: map<string, Arg>, outcomes: seq<Attempt>)
    requires Covers(outcomes, c.maxRetries)
    requires NonEmpty(c.authToken)
    requires ValidQueryArgs(Get(args, "query"), FormatArg(args))
    ensures var d := Dispatch(c, "natural_query", Some(args), outcomes);
            var loop := MakeRequestWithRetry(outcomes, c.maxRetries);
            && d.request.Some?
            && d.request.value == BuildRequest(c, Get(args, "query"), FormatArg(args), Get(args, "enable_memory"), Get(args, "session_id"))
            && d.request.value.headers["Authorization"] == "Bearer " + c.authToken.value
            && d.attempts == loop.attempts
            && d.outcome == QueryOutcome(Settle(c, loop.final))
  {
  }

  /** The text for the attempt the retry loop stopped at: the results label
      and dump on 2xx JSON, `"API Error: HTTP {code}: {body}"` on any other
      status, the timeout message after timeouts, the generic query error for
      any other failure. */
  lemma SettledText(c: ClientState, final: Attempt)
    ensures final.Responded? && 200 <= final.status < 300 && final.body.Json?
            ==> Render(QueryOutcome(Settle(c, final))) == ResultsPrefix + final.body.dump
    ensures final.Responded? && 200 <= final.status < 300 && final.body.NotJson?
            ==> Render(QueryOutcome(Settle(c, final))) == QueryFailedPrefix + final.body.message
    ensures final.Responded? && !(200 <= final.status < 300)
            ==> Render(QueryOutcome(Settle(c, final))) == ApiErrorPrefix + NatToString(final.status) + ": " + final.text
    ensures final.TransientFault? && final.kind == Timeout
            ==> Render(QueryOutcome(Settle(c, final))) == QueryFailedPrefix + ("Request timeout after " + c.timeoutText + "s")
    ensures final.TransientFault? && final.kind != Timeout
            ==> Render(QueryOutcome(Settle(c, final))) == QueryFailedPrefix + final.message
    ensures final.OtherFault? ==> Render(QueryOutcome(Settle(c, final))) == QueryFailedPrefix + final.message
  {
    if final.Responded? {
      SettledResponse(c, final);
    } else {
      SettledFault(c, final);
    }
  }

  /** The outcome for a response the loop returned. */
  lemma SettledResponse(c: ClientState, final: Attempt)
    requires final.Responded?
    ensures var o := QueryOutcome(Settle(c, final));
            && (200 <= final.status < 300 && final.body.Json? ==> o == QueryResults(final.body.dump))
            && (200 <= final.status < 300 && final.body.NotJson? ==> o == QueryFailed(final.body.message))
            && (!(200 <= final.status < 300) ==> o == ApiError(final.status, final.text))
  {
  }

  /** The outcome for a failure that escaped the loop. */
  lemma SettledFault(c: ClientState, final: Attempt)
    requires !final.Responded?
    ensures var o := QueryOutcome(Settle(c, final));
            && (final.TransientFault? && final.kind == Timeout
                ==> o == QueryFailed("Request timeout after " + c.timeoutText + "s"))
            && (final.TransientFault? && final.kind != Timeout ==> o == QueryFailed(final.message))
            && (final.OtherFault? ==> o == QueryFailed(final.message))
  {
  }


}
